=== FILE: README.md ===
# Chat client conversation controller, in Dafny

This project models the conversation-state controller of a desktop chat
client. The client keeps a log of `{role, content}` messages. It posts the whole log to a
completion endpoint and appends the assistant's reply. It also recognises two control
tokens, `~save` (write the log to a JSON file under `history/`) and `~exit` (save,
then exit the process).

Two revisions of the controller exist and are modelled separately, as written:

- `ChatAppRevision` (`chat_app.dfy`) models `ChatApp.py`, the windowed revision. It keeps a
  running cost total and disables its input widgets while a request is in flight.
- `ChatGptRevision` (`chat_gpt.dfy`) models `ChatGPT.py`, the hybrid revision. It has no cost
  total, never disables input, and only sends "user" messages.
- `Conversation` (`conversation.dfy`) holds what both share. That is the message and payload
  types, the HTTP reply type and the step outcome. It also holds the two pieces of code that are
  textually identical in both files: rendering the log as `role: content` lines
  (`get_chat_history`) and choosing a file name (`get_file_name`, apart from its timeout).

Every operation is a pure function from a state record to a `Step`. A `Step` holds the new state,
an `Outcome` and the list of payloads posted to the endpoint. The world enters as parameters:

- The HTTP round trip is a `Reply`: `Ok200(response?, cost?)`, `NotOk(status)` or `Raised`.
- The timestamp prefix and the uuid are strings inside a `SaveEnv`.
- The success of the disk write is a boolean inside `SaveEnv`.
- `os._exit(1)` is the outcome `Terminate`.

A session is a sequence of user events run by `Run`. It stops at the first `Terminate`.

The model follows the code as written. Behaviour worth noting:

- Input is never trimmed. The emptiness test is Python truthiness (`if message`). The control
  tokens must match the whole input exactly.
- `ChatApp.py` does not guard empty input at send time. An empty send still posts the log.
- A failing save is always fatal: any exception inside `save` calls `os._exit(1)`.
  This includes a name request that raises and a 200 body without `response`. The uuid fallback
  is taken only for a non-200 status.
- The cost total adds whatever the provider returns. It never decreases only when the costs are
  not negative. This holds over any session, loads included (`ChatAppRevision.SessionInvariants`).
- Two saves within the same minute can pick the same file when the provider suggests the same
  name. The second save then overwrites the first (`Conversation.SameSuggestionSameFile`).
- `ChatGPT.py` never disables input. Nothing catches an exception on its worker thread. The user
  turn stays in the log and no reply follows (`ThreadDied`).
- The model menu and the temperature slider are never read back in either file. Every payload
  carries the constructor's model and temperature (or, in `ChatGPT.py`, the model given to the
  last `set_model`; see `ChatGptRevision.SessionInvariants` and
  `ChatGptRevision.SetModelReachesNextRequest`).

## Model

| member | source | states |
|---|---|---|
| `Conversation.CostOf` | ChatApp.py:267 | an absent `cost` counts as 0, a present one as its value |
| `Conversation.TranscriptConcat` | ChatGPT.py:120-130 | rendering the log distributes over concatenation: the history of `a + b` is the history of `a` followed by that of `b` |
| `Conversation.TranscriptSnoc` | ChatApp.py:188-193 | appending one message appends exactly its `role: content\n` line to the history |
| `Conversation.TranscriptPrefix` | ChatApp.py:183-193 | when one log is a prefix of another, its history is a prefix of the other's history, so an append-only log only extends its display |
| `Conversation.GetChatHistory` | ChatApp.py:183-193 | the loop returns the in-order concatenation of `role: content\n` over the log, and `""` for an empty log (the same code is at ChatGPT.py:120-130) |
| `Conversation.JoinOfLines` | ChatGPT.py:113-117 | writing each message's line in log order yields exactly the rendered history |
| `Conversation.FileNameRequest` | ChatApp.py:198-207 | the file-name payload is the log unchanged followed by exactly one system message, the filename-generator instruction, with the same model and temperature |
| `Conversation.ChooseFileName` | ChatApp.py:208-213 | the name starts with the timestamp prefix; it is prefix + suggestion on a 200 with `response`, prefix + uuid + `.json` on any other status, and an exception exactly when the call raises or the 200 body has no `response` |
| `Conversation.FallbackNamesDistinct` | ChatApp.py:212-213 | fallback names taken with different uuids are different |
| `Conversation.SameSuggestionSameFile` | ChatApp.py:209-211 | two saves in the same minute with the same suggested name choose the same file, whatever the uuids |
| `Conversation.SaveOutcome` | ChatApp.py:157-166 | once `get_file_name` has returned, save either writes the whole log to `history/` + that name, or exits; it writes exactly when a name was returned and the disk write succeeds |
| `ChatAppRevision.Init` | ChatApp.py:34-60 | a new controller has an empty log, zero cost, enabled input, and the given model and temperature |
| `ChatAppRevision.DisableInputWidgets` | ChatApp.py:288-292 | input becomes disabled and nothing else changes |
| `ChatAppRevision.EnableInputWidgets` | ChatApp.py:294-298 | input becomes enabled and nothing else changes |
| `ChatAppRevision.Load` | ChatApp.py:168-175 | the loaded list replaces the log wholesale; cost, flag, model and temperature are untouched |
| `ChatAppRevision.GetFileName` | ChatApp.py:195-213 | the request carries the log plus one system prompt, with the log itself unchanged; the name is prefix + response on 200, prefix + uuid + `.json` on non-200, and none when it raises |
| `ChatAppRevision.Save` | ChatApp.py:157-166 | save takes its request and name from `GetFileName`, posts that one name request and leaves the state alone; it yields `Saved` with the current log as the snapshot, written to `history/` + the name `GetFileName` returned, or `Terminate` exactly when the name request raises, the 200 body lacks `response`, or the write fails |
| `ChatAppRevision.PrepareMessage` | ChatApp.py:218-225 | prepare issues no request; a non-empty input appends exactly `{role, input}`; an empty one leaves the state unchanged; only the log can change |
| `ChatAppRevision.WithUserTurn` | ChatApp.py:252-255 | the user turn is appended only when the message is non-empty |
| `ChatAppRevision.ProcessMessage` | ChatApp.py:236-286 | `~save`/`~exit` keep log and cost; `~exit` always terminates and `~save` terminates exactly when save does; a successful save's path (the `Saved` path, or `~exit`'s `savedTo`) is `history/` + the name from `GetFileName`; a chat message posts the log (with the turn when non-empty) even when empty; a 200 adds its cost (0 when absent) even without `response`; a 200 with `response` appends exactly one assistant turn; non-200 and exceptions append none and report; every non-terminating exit leaves input enabled |
| `ChatAppRevision.SendMessage` | ChatApp.py:227-234 | send disables input, changes nothing else, and hands the raw input, even when empty, to the worker |
| `ChatAppRevision.Submit` | ChatApp.py:227-286 | a full send leaves input enabled unless the process terminates; an empty input still posts one request carrying the current log |
| `ChatAppRevision.AnsweredTurnRendersTwoLines` | ChatApp.py:253-276 | an answered chat turn adds exactly the user's line and then the assistant's line to the history |
| `ChatAppRevision.FailedReplyChargesNothing` | ChatApp.py:264-280 | a non-200 reply adds no assistant turn, leaves the cost unchanged and re-enables input |
| `ChatAppRevision.SessionInvariants` | ChatApp.py:168-286 | over any session that does not exit, loads included, model and temperature never change, enabled input stays enabled, and the cost total never decreases when no reply carries a negative cost; without loads the log only grows by appending |
| `ChatGptRevision.Init` | ChatGPT.py:24-27 | a new controller has an empty log and the given model and temperature |
| `ChatGptRevision.Load` | ChatGPT.py:93-100 | the loaded list replaces the log wholesale, so no prior entry survives; model and temperature are untouched |
| `ChatGptRevision.ClearChat` | ChatGPT.py:103-106 | the log becomes empty and nothing else changes |
| `ChatGptRevision.SetModel` | ChatGPT.py:132-138 | only the model changes; log and temperature are untouched |
| `ChatGptRevision.ExportChatToTxt` | ChatGPT.py:108-118 | export writes one line per message, in log order, and the text written equals the chat history |
| `ChatGptRevision.GetFileName` | ChatGPT.py:140-158 | the request carries the log plus one system prompt, with the log itself unchanged; the name is prefix + response on 200, prefix + uuid + `.json` on non-200, and none when it raises |
| `ChatGptRevision.Save` | ChatGPT.py:60-68 | save takes its request and name from `GetFileName`, posts that one name request and leaves the state alone; it yields `Saved` with the current log as the snapshot, written to `history/` + the name `GetFileName` returned, or `Terminate` exactly when the name request raises, the 200 body lacks `response`, or the write fails |
| `ChatGptRevision.SaveLoadRoundTrip` | ChatGPT.py:60-100 | loading the snapshot a save wrote restores exactly the saved log; JSON encoding is not modelled, so this is not a serialisation round trip |
| `ChatGptRevision.ClearedChatRendersEmpty` | ChatGPT.py:103-130 | after `clear_chat` the chat history is the empty string |
| `ChatGptRevision.SetModelReachesNextRequest` | ChatGPT.py:132-138 | a user turn sent right after `set_model(m)` posts exactly one request, asking for model `m` at the unchanged temperature |
| `ChatGptRevision.PrepareMessage` | ChatGPT.py:232-239 | prepare issues no request; a non-empty input appends exactly `{role, input}`; an empty one leaves the state unchanged |
| `ChatGptRevision.ProcessMessage` | ChatGPT.py:248-287 | `~save`/`~exit` leave the state unchanged; `~exit` always terminates and `~save` terminates exactly when save does; a successful save's path (the `Saved` path, or `~exit`'s `savedTo`) is `history/` + the name from `GetFileName`; any other message is appended with its role; a non-user message gets no request and no reply; a user message posts the log including the turn; a 200 with `response` adds exactly two entries ending with the assistant turn; any other reply adds only the user turn |
| `ChatGptRevision.SendMessage` | ChatGPT.py:241-246 | empty input changes nothing and sends nothing; non-empty input is processed; unless the process exits, the old log is a prefix of the new one |
| `ChatGptRevision.AnsweredTurnRendersTwoLines` | ChatGPT.py:265-283 | an answered user turn adds exactly the user's line and then the assistant's line to the history |
| `ChatGptRevision.RequestsCarrySettings` | ChatGPT.py:148-152 | every request a step posts, chat or file name, carries the model and temperature in force when the step starts |
| `ChatGptRevision.SessionInvariants` | ChatGPT.py:98-287 | over any session that does not exit, the temperature never changes, the model is the one from the last `set_model` (or the starting one), and without clears or loads the log only grows by appending |
| `ChatGptRevision.AnsweredSessionLength` | ChatGPT.py:232-287 | a session made only of answered user turns and staged messages never exits; it grows the log by two per answered turn plus one per staged message |

## Left out

- Window layout, widgets, icon loading and `resource_path` are not modelled because they are UI.
  This includes the chat display (`update_chat_history`, `pretty_print_*`) and the welcome text.
  Of the widgets, only `ChatApp.py`'s enabled/disabled state survives, as `inputEnabled`.
- `requests.post` and the remote service are not modelled. Each round trip is a `Reply` parameter.
  In `ChatApp.py` the 300-second timeout surfaces as `Raised`.
- Every round trip is assumed to end. In `ChatGPT.py` both requests are posted with no timeout
  (ChatGPT.py:153 and ChatGPT.py:277), so one can hang for ever. Then `~exit` never reaches
  `os._exit`, `~save` never returns, and a user turn's worker thread never finishes. The
  `Terminate` promised for `~exit` by `ChatGptRevision.ProcessMessage` holds only for round trips
  that end.
- A 200 body that is not JSON is folded into `Raised`. `response.json()` raises before any state
  changes, so the effect is the same.
- Non-string JSON values in `response` or `cost` are not modelled. Both are typed (`string`,
  `real`).
- Threads are not modelled. `process_message` is a synchronous step. In `ChatGPT.py` input is
  never disabled, so two sends can overlap and interleave their appends. In `ChatApp.py` the
  Browse button is not among the widgets `disable_input_widgets` disables, so a `load` can land
  while a request is in flight, and the reply is then appended to the loaded list. Also in
  `ChatApp.py`, the `<Return>` binding on the entry (ChatApp.py:126) is not removed when the
  entry is disabled, so a second Enter during a request calls `send_message` again. That starts
  `process_message("", role)`, which posts the log a second time, and its `finally` re-enables
  input while the first request is still running. None of these interleavings is modelled.
- `json.dump`, `json.load` and file I/O are not modelled. `load` is "replace the log" and `save`
  is `Saved` or `Terminate`. A failing `load` (missing file, bad JSON) raises to its caller and is
  not modelled.
- `datetime.now().strftime` and `uuid.uuid4` are not modelled. They are the `prefix` and `id`
  parameters.
- Floating point is not modelled. `cost` and `temperature` are mathematical reals. The `:.5f`
  cost label and the slider resolution are left out.
- `ChatGptRevision.ExportChatToTxt` states the text passed to `write`, not the bytes on disk.
  ChatGPT.py:113 opens the file in text mode with no `encoding` or `newline` argument, so the
  platform's newline translation and locale codec apply; neither is modelled, and neither is an
  export that raises partway (a character the codec cannot encode), leaving a partial file.
- The interactive load prompt in the `ChatGPT.py` constructor is left out because it is console
  I/O. `ChatGptRevision.Init` is the constructor without a history file.
- The file-picker `load_history` and `run`/`build_gui` are left out because they are UI.

=== FILE: chat_app.dfy ===
/**
 The windowed revision of the chat client (`ChatApp.py`). Its controller
 state is the log, the running cost total, whether the input widgets are
 enabled, and the model name and temperature the payload carries (set once
 by the constructor; the model menu and temperature slider are never read
 back). Each user action is a pure step from one state to the next.

 Traits of this revision kept as written:
 - `send_message` does not look at the input: an empty input still posts a
   request, with the log as it stands.
 - a 200 reply adds its cost before the `response` field is read, so a body
   with a cost and no response still adds the cost.
 - input widgets are disabled on send and re-enabled in `finally`, which
   every exit except `os._exit` passes through.
 */
module ChatAppRevision {
  import opened Conversation

  datatype State = State(messages: seq<Message>, totalCost: real, inputEnabled: bool,
                         model: string, temperature: real)

  /** The controller part of `__init__`: empty log, zero cost, widgets enabled. */
  function Init(model: string, temperature: real): (s: State)
    ensures s.messages == [] && s.totalCost == 0.0 && s.inputEnabled
    ensures s.model == model && s.temperature == temperature
  {
    State([], 0.0, true, model, temperature)
  }

  /** `disable_input_widgets`: only the flag changes. */
  function DisableInputWidgets(s: State): (t: State)
    ensures !t.inputEnabled
    ensures t.(inputEnabled := s.inputEnabled) == s
  {
    s.(inputEnabled := false)
  }

  /** `enable_input_widgets`: only the flag changes. */
  function EnableInputWidgets(s: State): (t: State)
    ensures t.inputEnabled
    ensures t.(inputEnabled := s.inputEnabled) == s
  {
    s.(inputEnabled := true)
  }

  /** `load`: the loaded list replaces the log wholesale. */
  function Load(s: State, loaded: seq<Message>): (t: State)
    ensures t.messages == loaded
    ensures t.(messages := s.messages) == s
  {
    s.(messages := loaded)
  }

  /** `get_file_name`: the request it posts and the name it settles on (None
      when it raises). The state is only read. */
  function GetFileName(s: State, prefix: string, id: string, reply: Reply): (r: (Payload, Option<string>))
    ensures |r.0.messages| == |s.messages| + 1
    ensures s.messages <= r.0.messages && r.0.messages[|s.messages|] == FileNamePrompt
    ensures r.0.model == s.model && r.0.temperature == s.temperature
    ensures r.1.None? <==> reply.Raised? || (reply.Ok200? && reply.response.None?)
    ensures Answers(reply) ==> r.1 == Some(prefix + reply.response.value)
    ensures reply.NotOk? ==> r.1 == Some(prefix + id + ".json")
  {
    (FileNameRequest(s.messages, s.temperature, s.model), ChooseFileName(prefix, id, reply))
  }

  /** `save`: posts the name request, then either writes the whole log under
      `history/` or, on any exception on the way, exits the process. The
      state is left as it was. */
  function Save(s: State, env: SaveEnv): (r: Step<State>)
    ensures r.state == s
    ensures r.requests == [FileNameRequest(s.messages, s.temperature, s.model)]
    ensures r.outcome.Saved? || r.outcome == Terminate(None)
    ensures r.outcome.Saved? ==> r.outcome.snapshot == s.messages
    ensures r.outcome.Terminate? <==> SaveFails(env)
    ensures r.outcome.Saved? ==>
              r.outcome.path == HistoryDir + GetFileName(s, env.prefix, env.id, env.nameReply).1.value
  {
    var (request, name) := GetFileName(s, env.prefix, env.id, env.nameReply);
    Step(s, SaveOutcome(s.messages, name, env.writeOk), [request])
  }

  /** `prepare_message`: stage a non-empty input under the selected role
      without any request. */
  function PrepareMessage(s: State, input: string, role: string): (r: Step<State>)
    ensures r.requests == []
    ensures r.state.(messages := s.messages) == s
    ensures input == "" ==> r.state == s && r.outcome == Ignored
    ensures input != "" ==>
              && r.state.messages == s.messages + [Message(role, input)]
              && r.outcome == Staged
  {
    if input != "" then Step(s.(messages := s.messages + [Message(role, input)]), Staged, [])
    else Step(s, Ignored, [])
  }

  /** The log once `process_message` has (or has not) added the user's turn:
      only a non-empty message is appended. */
  function WithUserTurn(messages: seq<Message>, message: string, role: string): (ms: seq<Message>)
    ensures message == "" ==> ms == messages
    ensures message != "" ==> |ms| == |messages| + 1
    ensures messages <= ms && (message != "" ==> ms[|messages|] == Message(role, message))
  {
    if message != "" then messages + [Message(role, message)] else messages
  }

  /** `process_message` run to completion on the worker thread. */
  function ProcessMessage(s: State, message: string, role: string, reply: Reply, env: SaveEnv): (r: Step<State>)
    // control tokens touch neither the log nor the cost
    ensures message == ExitToken || message == SaveToken ==>
              r.state.messages == s.messages && r.state.totalCost == s.totalCost
              && r.requests == [FileNameRequest(s.messages, s.temperature, s.model)]
    ensures message == ExitToken ==> r.outcome.Terminate? && (r.outcome.savedTo.Some? <==> !SaveFails(env))
    ensures message == SaveToken ==>
              && (r.outcome.Terminate? <==> SaveFails(env))
              && (!SaveFails(env) ==> r.outcome.Saved? && r.outcome.snapshot == s.messages)
    // the file goes to `history/` + the name `get_file_name` settled on
    ensures (message == ExitToken || message == SaveToken) && !SaveFails(env) ==>
              var path := HistoryDir + GetFileName(s, env.prefix, env.id, env.nameReply).1.value;
              && (message == ExitToken ==> r.outcome.savedTo == Some(path))
              && (message == SaveToken ==> r.outcome.path == path)
    // a chat turn: appended only when non-empty, but the request goes out either way
    ensures message != ExitToken && message != SaveToken ==>
              var ms := WithUserTurn(s.messages, message, role);
              && r.requests == [Payload(ms, s.temperature, s.model)]
              && |r.state.messages| == |ms| + (if Answers(reply) then 1 else 0)
              && ms <= r.state.messages
              && (Answers(reply) ==> r.state.messages[|ms|] == Message(AssistantRole, reply.response.value)
                                     && r.outcome == Answered(reply.response.value))
              && r.state.totalCost == s.totalCost + (if reply.Ok200? then CostOf(reply.cost) else 0.0)
              && (reply.NotOk? ==> r.outcome == StatusReported(reply.status))
              && (reply.Raised? || (reply.Ok200? && reply.response.None?) ==> r.outcome == ExceptionReported)
    // `finally` re-enables the widgets on every exit but `os._exit`
    ensures r.outcome.Terminate? || r.state.inputEnabled
    ensures r.outcome.Terminate? ==> r.state == s
    ensures r.state.model == s.model && r.state.temperature == s.temperature
  {
    if message == ExitToken then
      var saved := Save(s, env);
      var savedTo := if saved.outcome.Saved? then Some(saved.outcome.path) else None;
      Step(s, Terminate(savedTo), saved.requests)
    else if message == SaveToken then
      var saved := Save(s, env);
      if saved.outcome.Terminate? then saved
      else Step(EnableInputWidgets(s), saved.outcome, saved.requests)
    else
      var ms := WithUserTurn(s.messages, message, role);
      var request := Payload(ms, s.temperature, s.model);
      var t := EnableInputWidgets(s.(messages := ms));
      match reply
      case Raised => Step(t, ExceptionReported, [request])
      case NotOk(status) => Step(t, StatusReported(status), [request])
      case Ok200(response, cost) =>
        var charged := t.(totalCost := s.totalCost + CostOf(cost));
        match response
        case None => Step(charged, ExceptionReported, [request])
        case Some(text) =>
          Step(charged.(messages := ms + [Message(AssistantRole, text)]), Answered(text), [request])
  }

  /** The state `send_message` leaves while the worker thread runs, and what
      it hands to that thread: the raw input, even when empty. */
  datatype InFlight = InFlight(state: State, message: string, role: string)

  /** `send_message`: disable the widgets and dispatch the input unexamined. */
  function SendMessage(s: State, input: string, role: string): (f: InFlight)
    ensures !f.state.inputEnabled
    ensures f.state.(inputEnabled := s.inputEnabled) == s
    ensures f.message == input && f.role == role
  {
    InFlight(DisableInputWidgets(s), input, role)
  }

  /** One press of Send (or Enter), from dispatch to the worker thread's end. */
  function Submit(s: State, input: string, role: string, reply: Reply, env: SaveEnv): (r: Step<State>)
    ensures r.outcome.Terminate? || r.state.inputEnabled
    ensures r.state.model == s.model && r.state.temperature == s.temperature
    ensures input == "" ==>
              && s.messages <= r.state.messages
              && |r.requests| == 1 && r.requests[0].messages == s.messages
  {
    var f := SendMessage(s, input, role);
    ProcessMessage(f.state, f.message, f.role, reply, env)
  }

  /** A successful chat turn renders as exactly two more lines: the user's
      and the assistant's. */
  lemma AnsweredTurnRendersTwoLines(s: State, input: string, role: string, reply: Reply, env: SaveEnv)
    requires input != "" && input != ExitToken && input != SaveToken
    requires Answers(reply)
    ensures Transcript(Submit(s, input, role, reply, env).state.messages)
         == Transcript(s.messages) + Line(Message(role, input))
            + Line(Message(AssistantRole, reply.response.value))
  {
    var user := Message(role, input);
    var answer := Message(AssistantRole, reply.response.value);
    var r := Submit(s, input, role, reply, env);
    assert r.state.messages == s.messages + [user] + [answer];
    TranscriptSnoc(s.messages, user);
    TranscriptSnoc(s.messages + [user], answer);
  }

  /** A non-200 reply leaves no assistant turn and does not change the cost. */
  lemma FailedReplyChargesNothing(s: State, input: string, role: string, status: NonOkStatus, env: SaveEnv)
    requires input != ExitToken && input != SaveToken
    ensures var r := Submit(s, input, role, NotOk(status), env);
            && r.state.totalCost == s.totalCost
            && r.state.messages == WithUserTurn(s.messages, input, role)
            && r.state.inputEnabled
  {
  }

  // ---------------------------------------------------------------------------
  // Sessions

  /** What the user can do to the window, with the world's answers attached. */
  datatype Event =
    | UserPrepares(input: string, role: string)
    | UserSends(input: string, role: string, reply: Reply, env: SaveEnv)
    | UserLoads(loaded: seq<Message>)

  function Apply(s: State, e: Event): Step<State> {
    match e
    case UserPrepares(input, role) => PrepareMessage(s, input, role)
    case UserSends(input, role, reply, env) => Submit(s, input, role, reply, env)
    case UserLoads(loaded) => Step(Load(s, loaded), Ignored, [])
  }

  /** The state after a session of events, or None once one of them exits the process. */
  function Run(s: State, events: seq<Event>): Option<State>
    decreases |events|
  {
    if events == [] then Some(s)
    else
      var step := Apply(s, events[0]);
      if step.outcome.Terminate? then None else Run(step.state, events[1..])
  }

  /** True when no reply of the session carries a negative cost. */
  predicate CostsNonNegative(events: seq<Event>) {
    forall i :: 0 <= i < |events| && events[i].UserSends? && events[i].reply.Ok200? ==>
      CostOf(events[i].reply.cost) >= 0.0
  }

  /** Over any session that does not exit, the model and temperature never
      change, the widgets are enabled whenever the session starts enabled,
      and with non-negative costs the total never decreases; without loads
      the log is append-only as well. */
  lemma {:induction false} SessionInvariants(s: State, events: seq<Event>)
    requires Run(s, events).Some?
    ensures var t := Run(s, events).value;
            && ((forall i :: 0 <= i < |events| ==> !events[i].UserLoads?) ==> s.messages <= t.messages)
            && t.model == s.model && t.temperature == s.temperature
            && (s.inputEnabled ==> t.inputEnabled)
            && (CostsNonNegative(events) ==> s.totalCost <= t.totalCost)
    decreases |events|
  {
    if events != [] {
      var step := Apply(s, events[0]);
      assert !step.outcome.Terminate?;
      if events[0].UserSends? && events[0].input != ExitToken && events[0].input != SaveToken {
        assert WithUserTurn(s.messages, events[0].input, events[0].role) <= step.state.messages;
      }
      SessionInvariants(step.state, events[1..]);
      if forall i :: 0 <= i < |events| ==> !events[i].UserLoads? {
        assert forall i :: 0 <= i < |events[1..]| ==> !events[1..][i].UserLoads? by {
          forall i | 0 <= i < |events[1..]| ensures !events[1..][i].UserLoads? {
            assert events[1..][i] == events[i + 1];
          }
        }
        assert !events[0].UserLoads?;
      }
      assert CostsNonNegative(events) ==> CostsNonNegative(events[1..]) by {
        if CostsNonNegative(events) {
          forall i | 0 <= i < |events[1..]| && events[1..][i].UserSends? && events[1..][i].reply.Ok200?
            ensures CostOf(events[1..][i].reply.cost) >= 0.0
          {
            assert events[1..][i] == events[i + 1];
          }
        }
      }
    }
  }
}

=== FILE: chat_gpt.dfy ===
/**
 The hybrid revision of the chat client (`ChatGPT.py`). Its controller state
 is the log and the model name and temperature the payload carries; it keeps
 no cost total and never disables its input widgets.

 Traits of this revision kept as written:
 - `send_message` dispatches only a non-empty input; an empty one changes
   nothing.
 - every non-command message is appended with its role, but only a "user"
   message is sent to the endpoint; a "system" message gets no reply.
 - nothing catches an exception on the worker thread: a request that raises,
   or a 200 body without `response`, ends the thread with the user turn
   already appended and no assistant turn.
 */
module ChatGptRevision {
  import opened Conversation

  datatype State = State(messages: seq<Message>, model: string, temperature: real)

  const UserRole: string := "user"

  /** The controller part of `__init__` when no history file is loaded. */
  function Init(model: string, temperature: real): (s: State)
    ensures s.messages == [] && s.model == model && s.temperature == temperature
  {
    State([], model, temperature)
  }

  /** `load`: the loaded list replaces the log wholesale. */
  function Load(s: State, loaded: seq<Message>): (t: State)
    ensures t.messages == loaded
    ensures t.(messages := s.messages) == s
  {
    s.(messages := loaded)
  }

  /** `clear_chat`: the log becomes empty; nothing else changes. */
  function ClearChat(s: State): (t: State)
    ensures t.messages == []
    ensures t.(messages := s.messages) == s
  {
    s.(messages := [])
  }

  /** `set_model`: only the model changes. */
  function SetModel(s: State, model: string): (t: State)
    ensures t.model == model
    ensures t.messages == s.messages && t.temperature == s.temperature
  {
    s.(model := model)
  }

  /** `export_chat_to_txt`, as the sequence of `file.write` calls it makes:
      one line per message, in log order, so the text written is exactly what
      `get_chat_history` returns. */
  method ExportChatToTxt(s: State) returns (writes: seq<string>)
    ensures |writes| == |s.messages|
    ensures forall i :: 0 <= i < |writes| ==> writes[i] == Line(s.messages[i])
    ensures Join(writes) == Transcript(s.messages)
  {
    writes := [];
    for i := 0 to |s.messages|
      invariant |writes| == i
      invariant forall k :: 0 <= k < i ==> writes[k] == Line(s.messages[k])
    {
      writes := writes + [Line(s.messages[i])];
    }
    JoinOfLines(writes, s.messages);
  }

  /** `get_file_name`: the request it posts and the name it settles on (None
      when it raises). The state is only read. */
  function GetFileName(s: State, prefix: string, id: string, reply: Reply): (r: (Payload, Option<string>))
    ensures |r.0.messages| == |s.messages| + 1
    ensures s.messages <= r.0.messages && r.0.messages[|s.messages|] == FileNamePrompt
    ensures r.0.model == s.model && r.0.temperature == s.temperature
    ensures r.1.None? <==> reply.Raised? || (reply.Ok200? && reply.response.None?)
    ensures Answers(reply) ==> r.1 == Some(prefix + reply.response.value)
    ensures reply.NotOk? ==> r.1 == Some(prefix + id + ".json")
  {
    (FileNameRequest(s.messages, s.temperature, s.model), ChooseFileName(prefix, id, reply))
  }

  /** `save`: posts the name request, then either writes the whole log under
      `history/` or, on any exception on the way, exits the process. */
  function Save(s: State, env: SaveEnv): (r: Step<State>)
    ensures r.state == s
    ensures r.requests == [FileNameRequest(s.messages, s.temperature, s.model)]
    ensures r.outcome.Saved? || r.outcome == Terminate(None)
    ensures r.outcome.Saved? ==> r.outcome.snapshot == s.messages
    ensures r.outcome.Terminate? <==> SaveFails(env)
    ensures r.outcome.Saved? ==>
              r.outcome.path == HistoryDir + GetFileName(s, env.prefix, env.id, env.nameReply).1.value
  {
    var (request, name) := GetFileName(s, env.prefix, env.id, env.nameReply);
    Step(s, SaveOutcome(s.messages, name, env.writeOk), [request])
  }

  /** Loading what a save wrote gives back the log that was saved. JSON
      encoding and the file itself are not modelled: the snapshot is the log
      value, so this states only that `save` writes the whole current log and
      `load` installs the whole loaded list, not a serialisation round trip. */
  lemma SaveLoadRoundTrip(s: State, env: SaveEnv, other: State)
    requires Save(s, env).outcome.Saved?
    ensures Load(other, Save(s, env).outcome.snapshot).messages == s.messages
  {
  }

  /** `prepare_message`: stage a non-empty input under the selected role
      without any request. */
  function PrepareMessage(s: State, input: string, role: string): (r: Step<State>)
    ensures r.requests == []
    ensures r.state.(messages := s.messages) == s
    ensures input == "" ==> r.state == s && r.outcome == Ignored
    ensures input != "" ==>
              && r.state.messages == s.messages + [Message(role, input)]
              && r.outcome == Staged
  {
    if input != "" then Step(s.(messages := s.messages + [Message(role, input)]), Staged, [])
    else Step(s, Ignored, [])
  }

  /** `process_message` run to completion on the worker thread. */
  function ProcessMessage(s: State, message: string, role: string, reply: Reply, env: SaveEnv): (r: Step<State>)
    // control tokens leave the state alone
    ensures message == ExitToken || message == SaveToken ==>
              r.state == s && r.requests == [FileNameRequest(s.messages, s.temperature, s.model)]
    ensures message == ExitToken ==> r.outcome.Terminate? && (r.outcome.savedTo.Some? <==> !SaveFails(env))
    ensures message == SaveToken ==>
              && (r.outcome.Terminate? <==> SaveFails(env))
              && (!SaveFails(env) ==> r.outcome.Saved? && r.outcome.snapshot == s.messages)
    // the file goes to `history/` + the name `get_file_name` settled on
    ensures (message == ExitToken || message == SaveToken) && !SaveFails(env) ==>
              var path := HistoryDir + GetFileName(s, env.prefix, env.id, env.nameReply).1.value;
              && (message == ExitToken ==> r.outcome.savedTo == Some(path))
              && (message == SaveToken ==> r.outcome.path == path)
    // any other message is appended with its role; only a user turn is sent
    ensures message != ExitToken && message != SaveToken ==>
              var turn := s.messages + [Message(role, message)];
              && !r.outcome.Terminate?
              && turn <= r.state.messages
              && (role != UserRole ==> r.state.messages == turn && r.requests == []
                                        && r.outcome == NotRequested)
              && (role == UserRole ==> r.requests == [Payload(turn, s.temperature, s.model)])
              && (role == UserRole && Answers(reply) ==>
                    && |r.state.messages| == |s.messages| + 2
                    && r.state.messages[|s.messages| + 1] == Message(AssistantRole, reply.response.value)
                    && r.outcome == Answered(reply.response.value))
              && (role == UserRole && !Answers(reply) ==> r.state.messages == turn)
              && (role == UserRole && reply.NotOk? ==> r.outcome == StatusReported(reply.status))
              && (role == UserRole && (reply.Raised? || reply.Ok200?) && !Answers(reply) ==>
                    r.outcome == ThreadDied)
    ensures r.state.model == s.model && r.state.temperature == s.temperature
  {
    if message == ExitToken then
      var saved := Save(s, env);
      var savedTo := if saved.outcome.Saved? then Some(saved.outcome.path) else None;
      Step(s, Terminate(savedTo), saved.requests)
    else if message == SaveToken then
      Save(s, env)
    else
      var turn := s.messages + [Message(role, message)];
      var t := s.(messages := turn);
      if role == UserRole then
        var request := Payload(turn, s.temperature, s.model);
        match reply
        case Raised => Step(t, ThreadDied, [request])
        case NotOk(status) => Step(t, StatusReported(status), [request])
        case Ok200(response, _) =>
          match response
          case None => Step(t, ThreadDied, [request])
          case Some(text) =>
            Step(t.(messages := turn + [Message(AssistantRole, text)]), Answered(text), [request])
      else
        Step(t, NotRequested, [])
  }

  /** `send_message`: an empty input is dropped, anything else is processed. */
  function SendMessage(s: State, input: string, role: string, reply: Reply, env: SaveEnv): (r: Step<State>)
    ensures input == "" ==> r.state == s && r.requests == [] && r.outcome == Ignored
    ensures input != "" ==> r == ProcessMessage(s, input, role, reply, env)
    ensures !r.outcome.Terminate? ==> s.messages <= r.state.messages
  {
    if input != "" then ProcessMessage(s, input, role, reply, env) else Step(s, Ignored, [])
  }

  /** A successful user turn renders as exactly two more lines: the user's
      and the assistant's. */
  lemma AnsweredTurnRendersTwoLines(s: State, input: string, reply: Reply, env: SaveEnv)
    requires input != "" && input != ExitToken && input != SaveToken
    requires Answers(reply)
    ensures Transcript(SendMessage(s, input, UserRole, reply, env).state.messages)
         == Transcript(s.messages) + Line(Message(UserRole, input))
            + Line(Message(AssistantRole, reply.response.value))
  {
    var user := Message(UserRole, input);
    var answer := Message(AssistantRole, reply.response.value);
    assert SendMessage(s, input, UserRole, reply, env).state.messages == s.messages + [user] + [answer];
    TranscriptSnoc(s.messages, user);
    TranscriptSnoc(s.messages + [user], answer);
  }

  /** After `clear_chat` the history renders as nothing at all. */
  lemma ClearedChatRendersEmpty(s: State)
    ensures Transcript(ClearChat(s).messages) == ""
  {
  }

  /** A user turn sent right after `set_model` asks the endpoint for that model,
      at the unchanged temperature. */
  lemma SetModelReachesNextRequest(s: State, model: string, input: string, reply: Reply, env: SaveEnv)
    requires input != "" && input != ExitToken && input != SaveToken
    ensures var r := SendMessage(SetModel(s, model), input, UserRole, reply, env);
            && |r.requests| == 1
            && r.requests[0].model == model
            && r.requests[0].temperature == s.temperature
  {
  }

  // ---------------------------------------------------------------------------
  // Sessions

  /** What the user (or a caller of the class) can do, with the world's answers attached. */
  datatype Event =
    | UserPrepares(input: string, role: string)
    | UserSends(input: string, role: string, reply: Reply, env: SaveEnv)
    | UserLoads(loaded: seq<Message>)
    | UserClears
    | UserSetsModel(model: string)

  function Apply(s: State, e: Event): Step<State> {
    match e
    case UserPrepares(input, role) => PrepareMessage(s, input, role)
    case UserSends(input, role, reply, env) => SendMessage(s, input, role, reply, env)
    case UserLoads(loaded) => Step(Load(s, loaded), Ignored, [])
    case UserClears => Step(ClearChat(s), Ignored, [])
    case UserSetsModel(model) => Step(SetModel(s, model), Ignored, [])
  }

  /** The state after a session of events, or None once one of them exits the process. */
  function Run(s: State, events: seq<Event>): Option<State>
    decreases |events|
  {
    if events == [] then Some(s)
    else
      var step := Apply(s, events[0]);
      if step.outcome.Terminate? then None else Run(step.state, events[1..])
  }

  /** A user turn that the endpoint answers. */
  predicate AnsweredTurn(e: Event) {
    e.UserSends? && e.input != "" && e.input != ExitToken && e.input != SaveToken
    && e.role == UserRole && Answers(e.reply)
  }

  /** A message staged with Prepare. */
  predicate StagedMessage(e: Event) {
    e.UserPrepares? && e.input != ""
  }

  function CountAnswered(events: seq<Event>): nat {
    if events == [] then 0
    else (if AnsweredTurn(events[0]) then 1 else 0) + CountAnswered(events[1..])
  }

  /** A session of answered user turns and staged messages never exits, and
      grows the log by two per answered turn plus one per staged message. */
  lemma {:induction false} AnsweredSessionLength(s: State, events: seq<Event>)
    requires forall i :: 0 <= i < |events| ==> AnsweredTurn(events[i]) || StagedMessage(events[i])
    ensures Run(s, events).Some?
    ensures |Run(s, events).value.messages|
         == |s.messages| + 2 * CountAnswered(events) + (|events| - CountAnswered(events))
    decreases |events|
  {
    if events != [] {
      var step := Apply(s, events[0]);
      assert AnsweredTurn(events[0]) || StagedMessage(events[0]);
      AnsweredSessionLength(step.state, events[1..]);
    }
  }

  /** True when the event empties or replaces the log. */
  predicate Resets(e: Event) {
    e.UserLoads? || e.UserClears?
  }

  /** The model in force after a session: the one given to the last
      `set_model`, or the starting one when there is none. */
  function ModelAfter(model: string, events: seq<Event>): string
    decreases |events|
  {
    if events == [] then model
    else ModelAfter(if events[0].UserSetsModel? then events[0].model else model, events[1..])
  }

  /** Every request a step posts carries the model and temperature in force
      when the step starts. */
  lemma RequestsCarrySettings(s: State, e: Event)
    ensures forall p :: p in Apply(s, e).requests ==> p.model == s.model && p.temperature == s.temperature
  {
  }

  /** Over any session that does not exit, the temperature never changes, the
      model is the one given to the last `set_model` (so every request of the
      next step carries it), and without clears or loads the log only grows by
      appending. */
  lemma {:induction false} SessionInvariants(s: State, events: seq<Event>)
    requires Run(s, events).Some?
    ensures var t := Run(s, events).value;
            && t.temperature == s.temperature
            && t.model == ModelAfter(s.model, events)
            && ((forall i :: 0 <= i < |events| ==> !Resets(events[i])) ==> s.messages <= t.messages)
    decreases |events|
  {
    if events != [] {
      var step := Apply(s, events[0]);
      assert !step.outcome.Terminate?;
      if events[0].UserSends? && events[0].input != "" {
        assert s.messages <= step.state.messages;
      }
      SessionInvariants(step.state, events[1..]);
      if forall i :: 0 <= i < |events| ==> !Resets(events[i]) {
        assert forall i :: 0 <= i < |events[1..]| ==> !Resets(events[1..][i]) by {
          forall i | 0 <= i < |events[1..]| ensures !Resets(events[1..][i]) {
            assert events[1..][i] == events[i + 1];
          }
        }
        assert !Resets(events[0]);
      }
    }
  }
}

=== FILE: conversation.dfy ===
/**
 The vocabulary both revisions of the chat client share: a conversation log
 of role-tagged messages, the JSON payload posted to the completion endpoint,
 what that HTTP round trip can come back with, the outcome a controller step
 reports, and the two pieces of logic that are textually identical in both
 revisions: rendering the log as "role: content" lines and choosing the file
 name a snapshot is saved under.

 The network, the clock and the random identifier are not part of the model:
 an HTTP round trip is an input of type `Reply`, and the timestamp prefix and
 the uuid are plain string parameters.
 */
module Conversation {

  datatype Option<+T> = None | Some(value: T) {
    /** The wrapped value, or `default` when there is none. */
    function GetOr(default: T): T {
      match this
      case Some(v) => v
      case None => default
    }
  }

  /** One entry of the log, `{"role": ..., "content": ...}`. Roles are free
      strings: the role menu offers "user" and "system", replies are tagged
      "assistant", and a loaded history file may carry anything. */
  datatype Message = Message(role: string, content: string)

  /** The JSON body posted to the completion endpoint. */
  datatype Payload = Payload(messages: seq<Message>, temperature: real, model: string)

  /** Any HTTP status other than 200. */
  type NonOkStatus = s: int | s != 200 witness 500

  /** How one `requests.post` round trip ended. A 200 body may lack either of
      its fields; a body that is not JSON at all makes `response.json()` raise
      before anything else happens, which is the same as `Raised`. */
  datatype Reply =
    | Ok200(response: Option<string>, cost: Option<real>)
    | NotOk(status: NonOkStatus)
    | Raised

  /** What a controller step reports to the user or to the host. */
  datatype Outcome =
    | Terminate(savedTo: Option<string>)       // `os._exit(1)`
    | Saved(path: string, snapshot: seq<Message>)
    | Answered(reply: string)                  // an assistant turn was appended
    | StatusReported(status: NonOkStatus)      // "Failed to get a response, status code: ..."
    | ExceptionReported                        // an exception caught and shown as a program line
    | ThreadDied                               // an exception nobody catches in the worker thread
    | NotRequested                             // a turn appended without calling the endpoint
    | Staged                                   // `prepare_message` appended the input
    | Ignored                                  // empty input, nothing happened

  /** A controller step: the new state, what it reports, and the requests it
      posted to the endpoint, in order. */
  datatype Step<S> = Step(state: S, outcome: Outcome, requests: seq<Payload>)

  const ExitToken: string := "~exit"
  const SaveToken: string := "~save"
  const HistoryDir: string := "history/"
  const AssistantRole: string := "assistant"

  /** The synthetic instruction `get_file_name` appends to the payload. */
  const FileNamePrompt: Message :=
    Message("system",
            "You are a filename generator, based on current conversation, generate a valid "
            + "file name with suffix .json, you must return the filename directly without "
            + "output anything else, this is an automated program.")

  /** `data.get('cost', 0)`: an absent cost counts as zero. */
  function CostOf(cost: Option<real>): (c: real)
    ensures cost.None? ==> c == 0.0
    ensures cost.Some? ==> c == cost.value
  {
    cost.GetOr(0.0)
  }

  /** True when the reply is a 200 whose body carries a `response`. */
  predicate Answers(reply: Reply) {
    reply.Ok200? && reply.response.Some?
  }

  // ---------------------------------------------------------------------------
  // Rendering

  /** The line one message contributes: `f"{role}: {content}\n"`. */
  function Line(m: Message): string {
    m.role + ": " + m.content + "\n"
  }

  /** Reference definition of the rendered log: each message's line, in log order. */
  function Transcript(ms: seq<Message>): string {
    if ms == [] then "" else Line(ms[0]) + Transcript(ms[1..])
  }

  /** Rendering distributes over concatenation of logs. */
  lemma {:induction false} TranscriptConcat(a: seq<Message>, b: seq<Message>)
    ensures Transcript(a + b) == Transcript(a) + Transcript(b)
  {
    if a == [] {
      assert a + b == b;
    } else {
      assert (a + b)[0] == a[0];
      assert (a + b)[1..] == a[1..] + b;
      TranscriptConcat(a[1..], b);
    }
  }

  /** Appending one message appends exactly its line to the rendering. */
  lemma TranscriptSnoc(ms: seq<Message>, m: Message)
    ensures Transcript(ms + [m]) == Transcript(ms) + Line(m)
  {
    TranscriptConcat(ms, [m]);
    assert [m][1..] == [];
  }

  /** An append-only log only ever extends its rendering. */
  lemma TranscriptPrefix(a: seq<Message>, b: seq<Message>)
    requires a <= b
    ensures Transcript(a) <= Transcript(b)
  {
    assert b == a + b[|a|..];
    TranscriptConcat(a, b[|a|..]);
  }

  /** `get_chat_history`: accumulate one line per message into `history`. */
  method GetChatHistory(messages: seq<Message>) returns (history: string)
    ensures history == Transcript(messages)
    ensures messages == [] ==> history == ""
  {
    history := "";
    for i := 0 to |messages|
      invariant history == Transcript(messages[..i])
    {
      assert messages[..i + 1] == messages[..i] + [messages[i]];
      TranscriptSnoc(messages[..i], messages[i]);
      history := history + Line(messages[i]);
    }
    assert messages[..|messages|] == messages;
  }

  /** The text handed to a sequence of `write` calls, in order. */
  function Join(writes: seq<string>): string {
    if writes == [] then "" else writes[0] + Join(writes[1..])
  }

  /** Writing each message's line, in order, produces the rendered log. */
  lemma {:induction false} JoinOfLines(writes: seq<string>, ms: seq<Message>)
    requires |writes| == |ms|
    requires forall i :: 0 <= i < |ms| ==> writes[i] == Line(ms[i])
    ensures Join(writes) == Transcript(ms)
  {
    if ms != [] {
      JoinOfLines(writes[1..], ms[1..]);
    }
  }

  // ---------------------------------------------------------------------------
  // Choosing a file name and saving

  /** The payload `get_file_name` posts: the log followed by one synthetic
      system instruction, built as a new list (`self.messages + system_prompt`). */
  function FileNameRequest(messages: seq<Message>, temperature: real, model: string): (p: Payload)
    ensures |p.messages| == |messages| + 1
    ensures p.messages[..|messages|] == messages
    ensures p.messages[|messages|] == FileNamePrompt
    ensures p.temperature == temperature && p.model == model
  {
    Payload(messages + [FileNamePrompt], temperature, model)
  }

  /** The name `get_file_name` returns, or None when it raises: the suggested
      name after the timestamp prefix on a 200, the uuid fallback on any other
      status, and an exception when the call raises or the 200 body has no
      `response` (`data['response']`). */
  function ChooseFileName(prefix: string, id: string, reply: Reply): (name: Option<string>)
    ensures name.None? <==> reply.Raised? || (reply.Ok200? && reply.response.None?)
    ensures name.Some? ==> prefix <= name.value
    ensures Answers(reply) ==> name == Some(prefix + reply.response.value)
    ensures reply.NotOk? ==> name == Some(prefix + id + ".json")
  {
    match reply
    case Ok200(response, _) =>
      if response.Some? then Some(prefix + response.value) else None
    case NotOk(_) => Some(prefix + id + ".json")
    case Raised => None
  }

  /** Two fallback names taken with different uuids never coincide. */
  lemma FallbackNamesDistinct(prefix: string, id1: string, id2: string, s1: NonOkStatus, s2: NonOkStatus)
    requires id1 != id2
    ensures ChooseFileName(prefix, id1, NotOk(s1)) != ChooseFileName(prefix, id2, NotOk(s2))
  {
    var n1 := prefix + id1 + ".json";
    var n2 := prefix + id2 + ".json";
    if |id1| == |id2| {
      assert n1[|prefix|..|prefix| + |id1|] == id1;
      assert n2[|prefix|..|prefix| + |id2|] == id2;
    } else {
      assert |n1| != |n2|;
    }
  }

  /** Two saves in the same minute whose name requests both come back with the
      same suggestion choose the same file, whatever the uuids: the second
      save overwrites the first. This follows directly from the definition of
      `ChooseFileName`; it is stated to record the overwrite, not as a proof. */
  lemma SameSuggestionSameFile(prefix: string, id1: string, id2: string, suggestion: string,
                               c1: Option<real>, c2: Option<real>)
    ensures ChooseFileName(prefix, id1, Ok200(Some(suggestion), c1))
         == ChooseFileName(prefix, id2, Ok200(Some(suggestion), c2))
  {
  }

  /** Everything `save` depends on besides the log: the timestamp prefix, the
      uuid, how the name request ended, and whether the disk write succeeded. */
  datatype SaveEnv = SaveEnv(prefix: string, id: string, nameReply: Reply, writeOk: bool)

  /** True when `save` hits an exception: the name request raises, its 200
      body has no `response`, or the file cannot be written. */
  predicate SaveFails(env: SaveEnv) {
    || env.nameReply.Raised?
    || (env.nameReply.Ok200? && env.nameReply.response.None?)
    || !env.writeOk
  }

  /** The outcome of `save` once `get_file_name` has returned `name` (None
      when it raised): the snapshot written under `history/`, or the abrupt
      exit its `except Exception` branch takes when the name is missing or
      the write fails. */
  function SaveOutcome(messages: seq<Message>, name: Option<string>, writeOk: bool): (o: Outcome)
    ensures o.Saved? || o == Terminate(None)
    ensures o.Saved? <==> name.Some? && writeOk
    ensures o.Saved? ==> o.snapshot == messages && o.path == HistoryDir + name.value
  {
    match name
    case None => Terminate(None)
    case Some(fn) => if writeOk then Saved(HistoryDir + fn, messages) else Terminate(None)
  }
}
